=== FILE: README.md ===
# Portfolio particle field and page behaviours, in Dafny

This project models the rule-bearing part of a personal portfolio site's
front-end scripts and proves properties of it.

- **Particle field** (`particles.dfy`, module `Particles`). It covers the three-tier particle count
  for the viewport width and the constructor's attribute ranges. It covers one particle's
  per-frame update: pointer repulsion, size boost, orbital drift, angle
  advance and edge wrap-around. It also covers the connection pass, which
  checks every unordered pair of particles and draws a line for the close ones
  with a linearly fading opacity. The resize, mousemove and mouseout handlers
  are modelled too. `Particle` and `ParticleSystem` are classes whose methods
  update their fields. `Particle.Update` is proved equal to the pure function
  `Step`, and the lemmas are about `Step`.
- **Konami code** (`konami.dfy`). The keydown handler keeps a window of the
  last ten keys and compares its comma-joined form with the code's.
- **Mobile menu** (`mobile_menu.dfy`). The toggle, open and close operations of the mobile
  navigation, and the keyboard handler that hides the menu on Escape.
- **Active navigation link** (`active_nav.dfy`). The scroll handler that highlights the link of the
  section under the reading position (scroll offset plus 200 px).
- **Loader** (`loader.dfy`). The progress counter, which grows by a random amount below 15 per
  tick, is capped at 100, and then stops its timer and schedules the exit.
- **Rotating words** (`rotating_text.dfy`). The index that cycles through the words modulo
  their count, moving the `active` class along.
- **Split text** (`split_text.dfy`). The transform that wraps every non-space character in
  `<span class="char">…</span>`.

The browser supplies some values through floating-point or random sources:
`Math.random`, `Math.sqrt`, `Math.atan2`, `Math.cos` and `Math.sin`. In the
model these are parameters, constrained by what those functions promise.
Examples are the `Draws` datatype of random draws in [0, 1), the `Trig`
datatype of one update's distance and direction, and the `dist` function of
the connection pass. Numbers are Dafny `real`s, the mathematical reals: arithmetic is exact, and
a square root such as √2 is a legal value.

Two details of the particle update are easy to misread. First, both coordinates
stay in the closed range [-50, W+50] (and [-50, H+50]). A value below -50 is
set to exactly W+50, and the second test (js/particles.js:148) does not fire
on it. Second, with no pointer the size is left as it was, not reset to the
base size (js/particles.js:121).

## Model

| member | source | states |
|---|---|---|
| Particles.ParticleCount | js/particles.js:24-29 | 30 particles exactly below width 768, 80 exactly from 1024, 50 in between |
| Particles.ParticleCountMonotone | js/particles.js:24-29 | a wider viewport never gets fewer particles |
| Particles.ParticleCountBreakpoints | js/particles.js:24-29 | 767→30, 768→50, 1023→50, 1024→80 |
| Particles.Force | js/particles.js:126-127 | inside the 150 px radius the force lies in (0, 1], and is 1 only when the pointer is on the particle |
| Particles.Interact | js/particles.js:121-135 | with no pointer nothing changes (the size is not reset); at distance ≥ 150 only the size resets to the base size; closer, base < size ≤ base + 3, with equality only at distance 0; the angle is untouched |
| Particles.Drift | js/particles.js:137-144 | the orbital phase keeps the size, advances the angle by exactly `spin`, and moves each coordinate by its speed plus a wobble of at most a tenth of the orbit radius |
| Particles.Wrap | js/particles.js:147-150 | the result lies in the closed range [-50, extent+50]; in-range values are kept; below -50 gives exactly extent+50; above extent+50 gives exactly -50 |
| Particles.WrapIdempotent | js/particles.js:147-150 | wrapping a wrapped coordinate changes nothing |
| Particles.Step | js/particles.js:119-151 | after an update x ∈ [-50, W+50] and y ∈ [-50, H+50]; the angle advances by exactly `spin`; the size facts of `Interact` carry over, including size = base + 3 exactly when the pointer is on the particle; size ≥ base size is kept |
| Particles.SizeStaysAboveBase | js/particles.js:121-135 | over any run of updates, the size never drops below the base size |
| Particles.RepulsionMovesAway | js/particles.js:126-130 | repulsion moves the particle by a step of length 2·force ≤ 2 px, straight away from the pointer: its distance to the pointer becomes d + 2·force |
| Particles.WobbleOnCircle | js/particles.js:137-144 | the orbital wobble added in one update has length exactly a tenth of the orbit radius |
| Particles.Opacity | js/particles.js:90-91 | for distances in [0, 150) the opacity lies in (0, 0.3], and it is 0.3 exactly at distance 0 |
| Particles.OpacityShape | js/particles.js:90-91 | closer pairs get strictly more opaque lines; 0.3 at d = 0 and 0.15 at d = 75 |
| Particles.AllPairsExactlyOnce | js/particles.js:84-85 | the nested loop over n particles visits n(n−1)/2 pairs: every pair i < j < n, each exactly once, and nothing else |
| Particles.LinesForMembers | js/particles.js:84-91 | a line is drawn for a visited pair exactly when its distance is below 150, with opacity (1 − d/150)·0.3 |
| Particles.LineIffClose | js/particles.js:84-91 | among n particles the pair i < j gets a line iff its distance is below 150; every line drawn joins i < j < n with opacity in (0, 0.3] |
| Particles.Scaled | js/particles.js:106-107 | a random draw in [0, 1) times a non-negative extent lies in [0, extent], and strictly below the extent when it is positive |
| Particles.PaletteIndex | js/particles.js:113 | the colour index drawn is a valid slot of the four-colour palette |
| Particles.Particle.constructor | js/particles.js:105-117 | a new particle has x ∈ [0, W) (or 0 when W = 0), y ∈ [0, H) (or 0 when H = 0), base size ∈ [1, 4) equal to its size, speeds ∈ [-0.25, 0.25), a palette colour, angle ∈ [0, 2π), spin ∈ [-0.01, 0.01) and orbit radius ∈ [0, 2) |
| Particles.Particle.Update | js/particles.js:119-151 | the in-place update leaves exactly the state `Step` computes from the old state, the field's pointer and the canvas size |
| Particles.ParticleSystem.constructor | js/particles.js:7-34 | the field starts with no pointer, a canvas the size of the viewport, and `getParticleCount()` freshly made, pairwise distinct particles |
| Particles.ParticleSystem.CreateParticles | js/particles.js:62-66 | appends exactly `particleCount` new, pairwise distinct particles, each within the constructor's ranges, and keeps the earlier ones |
| Particles.ParticleSystem.OnResize | js/particles.js:44-49 | a resize resizes the canvas, drops every particle and rebuilds exactly `getParticleCount()` fresh, pairwise distinct particles for the new width; the pointer is kept |
| Particles.ParticleSystem.OnMouseMove | js/particles.js:51-54 | the pointer becomes the event's client position |
| Particles.ParticleSystem.OnMouseOut | js/particles.js:56-59 | the pointer becomes absent whenever a `mouseout` reaches the window, which happens each time the pointer leaves any element |
| Particles.ParticleSystem.DrawConnections | js/particles.js:83-101 | the pass visits exactly `AllPairs(n)` in loop order and draws exactly `LinesFor` those pairs |
| Particles.ParticleSystem.ConnectRow | js/particles.js:85-99 | one inner loop extends the visited pairs by row i and the lines by the close pairs of that row |
| Konami.LastN | js/main.js:369 | for n > 0, the window is the last min(n, length) keys, in order |
| Konami.Join | js/main.js:371 | `join(',')`: empty for no keys, starts with the first key, and puts a comma right after it when more keys follow |
| Konami.SlidingWindow | js/main.js:368-369 | trimming to the last ten keys after each press equals taking the last ten of the whole key history |
| Konami.CodeWords | js/main.js:358-362 | the code has ten keys, none empty and none containing a comma |
| Konami.JoinSameHead | js/main.js:371 | a window of reported keys that joins like a list of code words starts with the same key, and the rest of the two joins agree |
| Konami.JoinInjective | js/main.js:371 | for keys the browser reports (",", or no comma), a window joins to the same string as the code only if it is the code |
| Konami.ActivatesIff | js/main.js:367-373 | for keys the browser reports (",", or no comma), the easter egg fires iff at least ten keys were pressed and the last ten are the code; so never before the tenth key, and again whenever the window matches, since it is not cleared |
| Konami.KonamiCode.constructor | js/main.js:356-364 | the window starts empty |
| Konami.KonamiCode.Keydown | js/main.js:367-374 | the window holds at most ten keys, is always the last ten pressed, and `activate` runs exactly when `ActivatesIff` says |
| MobileMenu.NavigationKeepsSync | js/main.js:100-161 | toggling flips `isOpen` and shows or hides the menu to match; closing always leaves `isOpen` false, the menu hidden and overflow reset, and is idempotent; two toggles cancel out |
| MobileMenu.EscapeHides | js/main.js:339-347 | Escape removes `active` and resets overflow only when the menu is active; other keys change nothing |
| MobileMenu.EscapeDesyncs | js/main.js:339-347 | after Escape on an open menu, `isOpen` is still true; the next toggle leaves the menu hidden and only a second one shows it |
| MobileMenu.EscapeClosingKeepsSync | js/main.js:339-347 | Escape routed through `closeMenu` keeps `isOpen` in agreement with the page, hides the menu the same way, and one toggle reopens it |
| MobileMenu.MobileNav.constructor | js/main.js:83-90 | the navigation starts closed |
| MobileMenu.MobileNav.ToggleMenu | js/main.js:100-108 | the toggle click leaves the navigation and page in state `Toggle` of the old one |
| MobileMenu.MobileNav.OpenMenu | js/main.js:110-112 | shows the menu and locks scrolling, leaving `isOpen` as it was |
| MobileMenu.MobileNav.CloseMenu | js/main.js:141-144 | hides the menu, restores scrolling and clears `isOpen` |
| MobileMenu.MobileNav.CloseOnEscape | js/main.js:339-347 | the corrected Escape handler: the state becomes `EscapeClosing` of the old one |
| MobileMenu.KeyboardNavKeydown | js/main.js:339-347 | the source's Escape handler: only the page changes, as `Escape` says |
| ActiveNav.LastCovering | js/main.js:277-282 | finds the last section whose [top, top + height) holds the position, or reports that none does |
| ActiveNav.Marks | js/main.js:283-288 | a link ends up active exactly when its `href` is the target |
| ActiveNav.HighlightFollowsLastSection | js/main.js:274-291 | when some section covers scrollY + 200, exactly the links whose href is `#` + the id of the last such section are active |
| ActiveNav.HighlightKeptOutsideSections | js/main.js:274-291 | when no section covers the position, link classes are unchanged |
| ActiveNav.AtMostOneActive | js/main.js:283-288 | with distinct hrefs, at most one link is active after a match |
| ActiveNav.ActiveNavLink.constructor | js/main.js:264-268 | records the links' hrefs and their classes |
| ActiveNav.ActiveNavLink.UpdateActiveLink | js/main.js:274-291 | against the sections' offsets and ids as read at this scroll, the loops over sections and links leave the link classes equal to `Highlighted` |
| Loader.Round | js/animations.js:47 | `Math.round`: the result is within half a unit, halves rounded up |
| Loader.Advance | js/animations.js:35-37 | a tick never exceeds 100, never lowers a progress within [0, 100], gives exactly 100 when the sum reaches 100 or more, and otherwise adds the increment |
| Loader.Trace | js/animations.js:34-42 | the run of the timer has at most one tick per increment and is empty only without increments |
| Loader.TraceMonotone | js/animations.js:34-43 | the progress stays within [start, 100] and never decreases; it is below 100 before the last tick, and a run cut short by the timer ends at exactly 100 |
| Loader.TraceSteps | js/animations.js:35-37 | the first tick adds less than 15 to the start, and each later tick adds less than 15 to the one before |
| Loader.TraceGrowth | js/animations.js:34-43 | after k + 1 ticks the progress is below start + 15(k + 1) |
| Loader.TraceShape | js/animations.js:34-43 | over the timer's ticks the progress never decreases and grows by less than 15 per tick; it stays within [start, 100]; it equals 100 only on the last tick, and the timer stops only there |
| Loader.AtLeastSevenTicks | js/animations.js:34-43 | from 0, the progress cannot reach 100 before the seventh tick |
| Loader.RoundShown | js/animations.js:45-48 | the percentage shown lies in [0, 100], follows the progress's order, and shows 100 at the end |
| Loader.Loader.constructor | js/animations.js:13-19 | progress starts at 0 with no timer running |
| Loader.Loader.StartLoading | js/animations.js:33-34 | starts the timer without touching the progress |
| Loader.Loader.Tick | js/animations.js:34-42 | one tick adds the increment, caps at exactly 100, clears the timer and schedules the exit exactly when 100 is reached, and updates width and percent text |
| Loader.Loader.UpdateProgress | js/animations.js:45-48 | the bar width shows the progress and the text shows it rounded |
| RotatingText.Next | js/animations.js:126 | the next index stays below the word count |
| RotatingText.NextWraps | js/animations.js:126 | the index moves one word on, back to 0 after the last |
| RotatingText.AfterWithinCycle | js/animations.js:124-128 | n ≤ L ticks move the index n words on, wrapping once past the end |
| RotatingText.FullCycle | js/animations.js:124-128 | L ticks return to the start and no fewer do: each word is shown once per cycle |
| RotatingText.Periodic | js/animations.js:124-128 | the rotation repeats with period L |
| RotatingText.Rotate | js/animations.js:125-127 | the new word becomes active; when L > 1 the previous one stops being active; the others are untouched |
| RotatingText.RotateKeepsOneActive | js/animations.js:125-127 | if only the current word is active, after a tick only the next one is |
| RotatingText.RotatingWords.constructor | js/animations.js:121-122 | the index starts at 0 |
| RotatingText.RotatingWords.Tick | js/animations.js:124-128 | with L > 0 words the index advances by one modulo L and the classes rotate; with none, the callback throws and nothing changes |
| SplitText.SplitChars | js/animations.js:139-142 | the split/map/join transform; each non-space character gains exactly the 26 characters of its two tags and spaces stay single, so the markup has one span per non-space character (per UTF-16 code unit in the source, which is the same for text within the Basic Multilingual Plane) |
| SplitText.SplitExamples | js/animations.js:139-142 | spaces stay bare, other characters each get a span, and `<` is not escaped |
| SplitText.SplitRoundTrip | js/animations.js:139-142 | reading the markup back gives the original text: the spans hold the characters in order, one each |

## Left out

- Canvas drawing (js/particles.js:153-175 and the stroke calls of js/particles.js:92-97): rendering through a 2D context, with no effect on the modelled state.
- The animation loop and the visibility pause/resume (js/particles.js:68-81, 196-212): frame scheduling. `Particle.Update` and `DrawConnections` model one frame's work.
- `Math.random`, `Math.sqrt`, `Math.atan2`, `Math.cos` and `Math.sin` are not computed. Their results are parameters constrained by what the functions promise. IEEE-754 rounding is not modelled, since all arithmetic is exact.
- Particles.ParticleSystem.constructor: the first frame that the source constructor runs (`animate()`, js/particles.js:35) is left to the frame loop. So the constructor's particles are in their spawn ranges and have not yet had their first update.
- Particles.Particle.Update: the cosine and sine of the orbit angle are not tied to the particle's `angle` field. `WobbleOnCircle` assumes only that they form a unit vector.
- Particles.ParticleSystem.DrawConnections: the `dist` parameter stands for the Euclidean distance between the current particles, and the line drawn is returned as data rather than stroked.
- Particles.ParticleSystem.ConnectRow: the source's inner loop is a separate method here, so that each loop has its own invariant.
- Timers: `setInterval` and `setTimeout` are not modelled. Each timer callback is a method (`Loader.Tick`, `RotatingWords.Tick`), and the 500 ms hide delay is a flag. The hide itself (a GSAP fade, then the hero animations) is not part of this model.
- Loader.Loader.StartLoading: requires that the timer was never started. The source starts it once, from the letters' animation.
- The Konami `activate` confetti (js/main.js:377-410): DOM and random styling.
- GSAP and ScrollTrigger tweens, the custom cursor, scroll progress, lazy loading, the contact form, throttle and debounce, and js/performance.js are not part of this model.
- Mobile menu: the value `'auto'` that the loader's exit writes to the body's overflow (js/animations.js:56) is not represented. The menu code itself writes only `''` and `'hidden'`, and no proved property depends on the value before the first toggle.
- SplitText.SplitChars: the model splits the text by Unicode scalar value, while `split('')` splits it by UTF-16 code unit. The two agree on text made only of Basic Multilingual Plane characters. For a character outside that plane (an emoji, say), the source wraps each of its two surrogate halves in a span of its own, and the model makes one span.

## Findings

| source | as written | input that shows it | evidently intended | confidence | as-written member | corrected member |
|---|---|---|---|---|---|---|
| js/main.js:339-347 | The Escape handler hides the mobile menu directly. It never clears `MobileNav.isOpen`. | Open the menu with the toggle, press Escape, then click the toggle once. `isOpen` flips to false, and `closeMenu` hides a menu that is already hidden. | Escape closes the menu through `closeMenu`, so `isOpen` is reset and the next click reopens the menu. | not executed | MobileMenu.EscapeDesyncs | MobileMenu.EscapeClosingKeepsSync |

=== FILE: active_nav.dfy ===
/**
 * Scroll-spy highlighting: on every scroll, the navigation link that points
 * at the section under the reading position gets class `active`.
 */
module ActiveNav {
  import opened Wrappers

  /** How far below the top of the viewport the reading position sits, in pixels. */
  const ScrollOffset: real := 200.0

  /** A `section[id]` of the page: its `offsetTop`, `offsetHeight` and `id`. */
  datatype Section = Section(top: real, height: real, id: string)

  /** The section's vertical extent covers the position: from its top included to its bottom excluded. */
  predicate Covers(s: Section, position: real)
  {
    s.top <= position < s.top + s.height
  }

  /** The last section, in document order, that covers the position. */
  function LastCovering(sections: seq<Section>, position: real): (r: Option<nat>)
    ensures r.None? <==> forall i | 0 <= i < |sections| :: !Covers(sections[i], position)
    ensures r.Some? ==> r.value < |sections| && Covers(sections[r.value], position)
    ensures r.Some? ==> forall i | r.value < i < |sections| :: !Covers(sections[i], position)
  {
    if sections == [] then None
    else if Covers(sections[|sections| - 1], position) then Some(|sections| - 1)
    else LastCovering(sections[..|sections| - 1], position)
  }

  /** Each link is active exactly when its `href` is the target. */
  function Marks(hrefs: seq<Option<string>>, target: string): (r: seq<bool>)
    ensures |r| == |hrefs|
    ensures forall k | 0 <= k < |r| :: r[k] <==> hrefs[k] == Some(target)
  {
    seq(|hrefs|, k requires 0 <= k < |hrefs| => hrefs[k] == Some(target))
  }

  /**
   * The link highlighting after a scroll: unchanged when no section covers
   * the position; otherwise every covering section in turn resets the links
   * and marks its own, so the last one wins.
   */
  function Highlighted(sections: seq<Section>, hrefs: seq<Option<string>>, position: real, before: seq<bool>): seq<bool>
  {
    match LastCovering(sections, position)
    case None => before
    case Some(k) => Marks(hrefs, "#" + sections[k].id)
  }

  /**
   * The links that end up active are exactly those whose `href` is `#`
   * followed by the id of the last section covering the reading position,
   * whatever the highlighting was before.
   */
  lemma HighlightFollowsLastSection(sections: seq<Section>, hrefs: seq<Option<string>>, position: real, before: seq<bool>, j: nat)
    requires j < |sections| && Covers(sections[j], position)
    requires forall i | j < i < |sections| :: !Covers(sections[i], position)
    ensures var after := Highlighted(sections, hrefs, position, before);
      |after| == |hrefs| && forall k | 0 <= k < |hrefs| :: after[k] <==> hrefs[k] == Some("#" + sections[j].id)
  {
  }

  /** Above or below every section, a scroll leaves the highlighting as it was. */
  lemma HighlightKeptOutsideSections(sections: seq<Section>, hrefs: seq<Option<string>>, position: real, before: seq<bool>)
    requires forall i | 0 <= i < |sections| :: !Covers(sections[i], position)
    ensures Highlighted(sections, hrefs, position, before) == before
  {
  }

  /** When the links point at distinct places, marking one target leaves at most one link active. */
  lemma AtMostOneActive(hrefs: seq<Option<string>>, target: string)
    requires forall k1, k2 | 0 <= k1 < k2 < |hrefs| :: hrefs[k1] != hrefs[k2]
    ensures forall k1, k2 | 0 <= k1 < |hrefs| && 0 <= k2 < |hrefs| && Marks(hrefs, target)[k1] && Marks(hrefs, target)[k2] :: k1 == k2
  {
  }

  class ActiveNavLink {
    /** The `href` of each `.nav-link`, `None` when it has none. */
    const hrefs: seq<Option<string>>
    /** Whether each `.nav-link` has class `active`. */
    var active: seq<bool>

    ghost predicate Valid()
      reads this
    {
      |active| == |hrefs|
    }

    constructor (hrefs: seq<Option<string>>, active: seq<bool>)
      requires |active| == |hrefs|
      ensures Valid()
      ensures this.hrefs == hrefs && this.active == active
    {
      this.hrefs := hrefs;
      this.active := active;
    }

    /**
     * The scroll handler. `sections` are the page's `section[id]` elements
     * in document order, with the offsets and ids they have at this scroll,
     * since the handler reads them afresh every time.
     */
    method UpdateActiveLink(sections: seq<Section>, scrollY: real)
      requires Valid()
      modifies this
      ensures Valid()
      ensures active == Highlighted(sections, hrefs, scrollY + ScrollOffset, old(active))
    {
      var position := scrollY + ScrollOffset;
      var i := 0;
      while i < |sections|
        invariant 0 <= i <= |sections|
        invariant |active| == |hrefs|
        invariant active == Highlighted(sections[..i], hrefs, position, old(active))
      {
        var section := sections[i];
        if position >= section.top && position < section.top + section.height {
          var target := "#" + section.id;
          var k := 0;
          while k < |hrefs|
            invariant 0 <= k <= |hrefs|
            invariant |active| == |hrefs|
            invariant forall j | 0 <= j < k :: active[j] <==> hrefs[j] == Some(target)
          {
            active := active[k := false];
            if hrefs[k] == Some(target) {
              active := active[k := true];
            }
            k := k + 1;
          }
          assert active == Marks(hrefs, target);
        }
        assert sections[..i + 1][..i] == sections[..i];
        i := i + 1;
      }
      assert sections[..|sections|] == sections;
    }
  }
}

=== FILE: konami.dfy ===
/**
 * The Konami-code easter egg: every key press is appended to a window that
 * keeps only the last ten keys, and the confetti fires whenever the window,
 * joined with commas, equals the code joined with commas.
 */
module Konami {

  /** The ten `KeyboardEvent.key` values of the code, in order. */
  const Code: seq<string> := [
    "ArrowUp", "ArrowUp", "ArrowDown", "ArrowDown",
    "ArrowLeft", "ArrowRight", "ArrowLeft", "ArrowRight",
    "b", "a"
  ]

  /** How many recent keys the window keeps (`slice(-10)`). */
  const WindowSize: nat := 10

  /** `slice(-n)` on a list, for n > 0: its last n entries, or all of it when it is shorter. */
  function LastN<T>(s: seq<T>, n: nat): (r: seq<T>)
    requires n > 0
    ensures |r| == if |s| < n then |s| else n
    ensures r == s[|s| - |r|..]
  {
    if |s| <= n then s else s[|s| - n..]
  }

  /** `join(',')`: the entries separated by single commas. */
  function Join(keys: seq<string>): (r: string)
    ensures keys == [] ==> r == ""
    ensures keys != [] ==> keys[0] <= r
    ensures |keys| > 1 ==> |r| > |keys[0]| && r[|keys[0]|] == ','
  {
    if keys == [] then ""
    else if |keys| == 1 then keys[0]
    else keys[0] + "," + Join(keys[1..])
  }

  /**
   * A key value the browser can report: the comma key itself, or a name or
   * character with no comma in it.
   */
  predicate KeyValue(k: string)
  {
    k == "," || ',' !in k
  }

  /** A word that the comma-joined code is made of: non-empty and comma-free. */
  predicate CodeWord(k: string)
  {
    k != "" && ',' !in k
  }

  /** Keeping only a window of the last n keys after every press is the same as taking the last n of the whole history. */
  lemma SlidingWindow<T>(history: seq<T>, key: T, n: nat)
    requires n > 0
    ensures LastN(LastN(history, n) + [key], n) == LastN(history + [key], n)
  {
  }

  lemma CodeWords()
    ensures |Code| == WindowSize
    ensures forall k <- Code :: CodeWord(k)
  {
  }

  /** A non-empty join is its first entry followed by `JoinTail`. */
  lemma JoinHead(keys: seq<string>)
    requires keys != []
    ensures Join(keys) == keys[0] + JoinTail(keys)
  {
  }

  /** What follows the first entry in a join: nothing, or a comma and the rest. */
  function JoinTail(keys: seq<string>): (t: string)
    requires keys != []
    ensures t == "" <==> |keys| == 1
    ensures t != "" ==> t[0] == ','
  {
    if |keys| == 1 then "" else "," + Join(keys[1..])
  }

  /** The position of the first comma in a string, or its length when it has none. */
  function FirstComma(s: string): (k: nat)
    ensures k <= |s|
    ensures ',' !in s[..k]
    ensures k < |s| ==> s[k] == ','
  {
    if s == [] then 0
    else if s[0] == ',' then 0
    else
      var k := 1 + FirstComma(s[1..]);
      assert s[..k] == [s[0]] + s[1..][..k - 1];
      k
  }

  /** A comma-free word followed by nothing or by a comma ends at the first comma. */
  lemma {:induction false} FirstCommaAfter(a: string, x: string)
    requires ',' !in a
    requires x == "" || x[0] == ','
    ensures FirstComma(a + x) == |a|
  {
    if a != [] {
      assert (a + x)[0] == a[0];
      assert (a + x)[1..] == a[1..] + x;
      FirstCommaAfter(a[1..], x);
    } else {
      assert a + x == x;
    }
  }

  /** Two comma-free words each followed by nothing or a comma: equal strings mean equal words. */
  lemma SplitAtComma(a: string, x: string, b: string, y: string)
    requires ',' !in a && ',' !in b
    requires x == "" || x[0] == ','
    requires y == "" || y[0] == ','
    requires a + x == b + y
    ensures a == b && x == y
  {
    FirstCommaAfter(a, x);
    FirstCommaAfter(b, y);
    assert a == (a + x)[..|a|];
    assert b == (b + y)[..|b|];
    assert x == (a + x)[|a|..];
    assert y == (b + y)[|b|..];
  }

  /** When a window of reported keys joins like a list of code words, the two start with the same key. */
  lemma JoinSameHead(window: seq<string>, words: seq<string>)
    requires forall k <- window :: KeyValue(k)
    requires words != [] && forall k <- words :: CodeWord(k)
    requires Join(window) == Join(words)
    ensures window != [] && window[0] == words[0] && JoinTail(window) == JoinTail(words)
  {
    JoinHead(words);
    assert CodeWord(words[0]);
    assert window != [];
    JoinHead(window);
    assert KeyValue(window[0]);
    FirstCommaAfter(words[0], JoinTail(words));
    assert window[0] != "," by {
      assert "," + JoinTail(window) == [','] + JoinTail(window);
    }
    SplitAtComma(window[0], JoinTail(window), words[0], JoinTail(words));
  }

  /**
   * The comma-joined comparison is exact: for keys the browser can report,
   * a window joins to the same string as a list of code words only when it
   * is that very list.
   */
  lemma {:induction false} JoinInjective(window: seq<string>, words: seq<string>)
    requires forall k <- window :: KeyValue(k)
    requires words != [] && forall k <- words :: CodeWord(k)
    requires Join(window) == Join(words)
    ensures window == words
    decreases |words|
  {
    JoinSameHead(window, words);
    if |words| > 1 {
      var rest, restWords := window[1..], words[1..];
      assert Join(rest) == Join(restWords) by {
        assert JoinTail(window)[1..] == Join(rest);
        assert JoinTail(words)[1..] == Join(restWords);
      }
      assert forall k <- rest :: k in window;
      assert forall k <- restWords :: k in words;
      JoinInjective(rest, restWords);
      assert window == [window[0]] + rest;
      assert words == [words[0]] + restWords;
    }
  }

  /** The confetti fires after the given key history exactly when the comma-joined window matches. */
  predicate Activates(history: seq<string>)
  {
    Join(LastN(history, WindowSize)) == Join(Code)
  }

  /**
   * For keys the browser can report, the easter egg fires exactly when the
   * last ten keys are the code: never before the tenth key, and again every
   * time the last ten keys spell the code, since the window is not cleared.
   */
  lemma ActivatesIff(history: seq<string>)
    requires forall k <- history :: KeyValue(k)
    ensures Activates(history) <==> |history| >= WindowSize && history[|history| - WindowSize..] == Code
  {
    CodeWords();
    var window := LastN(history, WindowSize);
    assert forall k <- window :: k in history;
    if Activates(history) {
      JoinInjective(window, Code);
    }
  }

  class KonamiCode {
    /** The window of recent keys. */
    var sequence: seq<string>
    /** Every key pressed since the page loaded. */
    ghost var pressed: seq<string>

    ghost predicate Valid()
      reads this
    {
      sequence == LastN(pressed, WindowSize)
    }

    constructor ()
      ensures Valid() && pressed == [] && sequence == []
    {
      sequence := [];
      pressed := [];
    }

    /** The keydown handler; `activated` says whether it called `activate()`. */
    method Keydown(key: string) returns (activated: bool)
      requires Valid()
      modifies this
      ensures Valid() && pressed == old(pressed) + [key]
      ensures |sequence| <= WindowSize
      ensures activated <==> Activates(pressed)
    {
      sequence := sequence + [key];
      sequence := LastN(sequence, WindowSize);
      SlidingWindow(pressed, key, WindowSize);
      pressed := pressed + [key];
      activated := Join(sequence) == Join(Code);
    }
  }
}

=== FILE: loader.dfy ===
/**
 * The page loader's progress bar: once the letters have appeared, a timer
 * adds a random amount below 15 to the progress every 100 ms, caps it at
 * 100, stops there and schedules the loader's exit 500 ms later.
 */
module Loader {

  /** The exclusive upper bound of one increment (`Math.random() * 15`). */
  const MaxIncrement: real := 15.0
  /** Where the progress stops. */
  const Complete: real := 100.0

  /** `Math.round`: the nearest integer, halves rounded up. */
  function Round(x: real): (n: int)
    ensures n as real - 0.5 <= x < n as real + 0.5
  {
    (x + 0.5).Floor
  }

  /** One timer tick: add the increment, and cap the sum at 100. */
  function Advance(progress: real, increment: real): (r: real)
    ensures r <= Complete
    ensures 0.0 <= increment && progress <= Complete ==> progress <= r
    ensures r == Complete <==> progress + increment >= Complete
    ensures r < Complete ==> r == progress + increment
  {
    if progress + increment >= Complete then Complete else progress + increment
  }

  /**
   * The progress after each tick of the timer, for the given random
   * increments, until the timer is cleared on reaching 100.
   */
  function Trace(progress: real, increments: seq<real>): (t: seq<real>)
    ensures |t| <= |increments|
    ensures t == [] <==> increments == []
    decreases |increments|
  {
    if increments == [] then []
    else
      var next := Advance(progress, increments[0]);
      [next] + if next == Complete then [] else Trace(next, increments[1..])
  }

  predicate Increments(increments: seq<real>)
  {
    forall i | 0 <= i < |increments| :: 0.0 <= increments[i] < MaxIncrement
  }

  /** The tail of a trace after its first tick is the trace from that tick on. */
  lemma TraceUnfold(progress: real, increments: seq<real>)
    requires increments != [] && Advance(progress, increments[0]) < Complete
    ensures Trace(progress, increments) == [Advance(progress, increments[0])] + Trace(Advance(progress, increments[0]), increments[1..])
  {
  }

  lemma IncrementsTail(increments: seq<real>)
    requires increments != [] && Increments(increments)
    ensures Increments(increments[1..])
  {
    forall i | 0 <= i < |increments[1..]| ensures 0.0 <= increments[1..][i] < MaxIncrement {
      assert increments[1..][i] == increments[i + 1];
    }
  }

  /** The trace stays within [start, 100], never goes down, and reaches 100 only on its last tick, which ends it early. */
  lemma {:induction false} TraceMonotone(progress: real, increments: seq<real>)
    requires 0.0 <= progress < Complete
    requires Increments(increments)
    ensures var t := Trace(progress, increments);
      (forall k | 0 <= k < |t| :: progress <= t[k] <= Complete) &&
      (forall k | 0 < k < |t| :: t[k - 1] <= t[k]) &&
      (forall k | 0 <= k < |t| - 1 :: t[k] < Complete) &&
      (|t| < |increments| ==> t != [] && t[|t| - 1] == Complete)
    decreases |increments|
  {
    if increments != [] {
      var next := Advance(progress, increments[0]);
      if next != Complete {
        IncrementsTail(increments);
        TraceMonotone(next, increments[1..]);
        TraceUnfold(progress, increments);
      }
    }
  }

  /** Each tick of the trace adds less than 15. */
  lemma {:induction false} TraceSteps(progress: real, increments: seq<real>)
    requires Increments(increments)
    ensures var t := Trace(progress, increments);
      (t != [] ==> t[0] < progress + MaxIncrement) &&
      (forall k | 0 < k < |t| :: t[k] - t[k - 1] < MaxIncrement)
    decreases |increments|
  {
    if increments != [] {
      var next := Advance(progress, increments[0]);
      if next != Complete {
        IncrementsTail(increments);
        TraceSteps(next, increments[1..]);
        TraceUnfold(progress, increments);
      }
    }
  }

  /** After k + 1 ticks the progress has grown by less than 15 (k + 1). */
  lemma {:induction false} TraceGrowth(progress: real, increments: seq<real>, k: nat)
    requires Increments(increments)
    requires k < |Trace(progress, increments)|
    ensures Trace(progress, increments)[k] < progress + MaxIncrement * (k + 1) as real
    decreases k
  {
    var t := Trace(progress, increments);
    TraceSteps(progress, increments);
    if k > 0 {
      TraceGrowth(progress, increments, k - 1);
      assert t[k] - t[k - 1] < MaxIncrement;
    }
  }

  /**
   * The progress shown never goes down, stays between its start and 100,
   * grows by less than 15 per tick, reaches 100 only on the timer's last
   * tick, and the timer runs on through every increment until then.
   */
  lemma TraceShape(progress: real, increments: seq<real>)
    requires 0.0 <= progress < Complete
    requires Increments(increments)
    ensures var t := Trace(progress, increments);
      (forall k | 0 <= k < |t| :: progress <= t[k] <= Complete) &&
      (forall k | 0 <= k < |t| :: t[k] < progress + MaxIncrement * (k + 1) as real) &&
      (forall k | 0 < k < |t| :: t[k - 1] <= t[k]) &&
      (t != [] ==> t[0] < progress + MaxIncrement) &&
      (forall k | 0 < k < |t| :: t[k] - t[k - 1] < MaxIncrement) &&
      (forall k | 0 <= k < |t| - 1 :: t[k] < Complete) &&
      (|t| < |increments| ==> t != [] && t[|t| - 1] == Complete)
  {
    TraceMonotone(progress, increments);
    TraceSteps(progress, increments);
    var t := Trace(progress, increments);
    forall k | 0 <= k < |t|
      ensures t[k] < progress + MaxIncrement * (k + 1) as real
    {
      TraceGrowth(progress, increments, k);
    }
  }

  /** Starting from zero, the bar needs at least seven ticks to fill, since each adds less than 15. */
  lemma AtLeastSevenTicks(increments: seq<real>, k: nat)
    requires Increments(increments)
    requires k < |Trace(0.0, increments)| && Trace(0.0, increments)[k] == Complete
    ensures k >= 6
  {
    TraceShape(0.0, increments);
  }

  /** The percentage shown for a progress between 0 and 100 is itself between 0 and 100, and rounding keeps the order. */
  lemma RoundShown(p: real, q: real)
    requires 0.0 <= p <= q <= Complete
    ensures 0 <= Round(p) <= Round(q) <= 100
    ensures Round(Complete) == 100
  {
  }

  class Loader {
    var loadProgress: real
    /** The bar's `style.width`, in percent. */
    var barWidth: real
    /** The whole percentage shown beside the bar. */
    var percentShown: int
    /** The progress timer is running. */
    var ticking: bool
    /** The loader's exit has been scheduled. */
    var hideScheduled: bool

    ghost predicate Valid()
      reads this
    {
      0.0 <= loadProgress <= Complete &&
      !(ticking && hideScheduled) &&
      (hideScheduled <==> loadProgress == Complete)
    }

    constructor (barWidth: real, percentShown: int)
      ensures Valid()
      ensures loadProgress == 0.0 && !ticking && !hideScheduled
      ensures this.barWidth == barWidth && this.percentShown == percentShown
    {
      loadProgress := 0.0;
      this.barWidth := barWidth;
      this.percentShown := percentShown;
      ticking := false;
      hideScheduled := false;
    }

    /** Starts the progress timer. */
    method StartLoading()
      requires Valid() && !ticking && !hideScheduled
      modifies this
      ensures Valid() && ticking
      ensures loadProgress == old(loadProgress) && !hideScheduled
      ensures barWidth == old(barWidth) && percentShown == old(percentShown)
    {
      ticking := true;
    }

    /** One run of the timer's callback, with the random draw already scaled to an increment. */
    method Tick(increment: real)
      requires Valid() && ticking
      requires 0.0 <= increment < MaxIncrement
      modifies this
      ensures Valid()
      ensures loadProgress == Advance(old(loadProgress), increment)
      ensures ticking <==> loadProgress < Complete
      ensures hideScheduled <==> loadProgress == Complete
      ensures barWidth == loadProgress && percentShown == Round(loadProgress)
    {
      loadProgress := loadProgress + increment;
      if loadProgress >= Complete {
        loadProgress := Complete;
        ticking := false;
        hideScheduled := true;
      }
      UpdateProgress();
    }

    method UpdateProgress()
      modifies this`barWidth, this`percentShown
      ensures barWidth == loadProgress && percentShown == Round(loadProgress)
    {
      barWidth := loadProgress;
      percentShown := Round(loadProgress);
    }
  }
}

=== FILE: mobile_menu.dfy ===
/**
 * The mobile navigation menu: a toggle button that opens and closes the
 * menu overlay (locking page scroll while it is open), menu links that
 * close it, and the keyboard handler that hides it on Escape.
 */
module MobileMenu {

  /**
   * `document.body.style.overflow` as the menu code writes it: cleared (`''`)
   * or `'hidden'`. The loader's exit sets it to `'auto'` before the menu is
   * used; that value is not one of these, so a page the menu has not yet
   * touched is given one of the two.
   */
  datatype Overflow = Unset | Hidden

  /** What the menu code writes on the page: whether `#mobile-menu` has class `active`, and the body's overflow. */
  datatype PageState = PageState(menuActive: bool, overflow: Overflow)

  /** The mobile navigation's own flag together with the page it drives. */
  datatype NavState = NavState(isOpen: bool, page: PageState)

  /** The page with the overlay shown and scrolling locked. */
  const Shown := PageState(true, Hidden)
  /** The page with the overlay hidden and scrolling restored. */
  const Concealed := PageState(false, Unset)

  /** `openMenu()`: shows the overlay; it leaves `isOpen` to its caller. */
  function Open(s: NavState): NavState
  {
    s.(page := Shown)
  }

  /** `closeMenu()`, run by the toggle and by every menu link. */
  function Close(s: NavState): NavState
  {
    NavState(false, Concealed)
  }

  /** `toggleMenu()`: flips `isOpen`, then opens or closes to match. */
  function Toggle(s: NavState): NavState
  {
    var flipped := s.(isOpen := !s.isOpen);
    if flipped.isOpen then Open(flipped) else Close(flipped)
  }

  /** The keydown handler of the keyboard navigation: Escape hides an active overlay and restores scrolling. */
  function Escape(key: string, p: PageState): PageState
  {
    if key == "Escape" && p.menuActive then Concealed else p
  }

  /** The flag agrees with what the page shows. */
  predicate Synced(s: NavState)
  {
    s.page == if s.isOpen then Shown else Concealed
  }

  /**
   * The toggle and the links keep the flag and the page in agreement; a
   * toggle even restores agreement from any state, and two toggles in a
   * row come back to where they started.
   */
  lemma NavigationKeepsSync(s: NavState)
    ensures Synced(Toggle(s)) && Synced(Close(s))
    ensures Toggle(s).isOpen == !s.isOpen
    ensures Synced(s) ==> Toggle(Toggle(s)) == s
    ensures !Close(s).isOpen && !Close(s).page.menuActive && Close(s).page.overflow == Unset
    ensures Close(Close(s)) == Close(s)
  {
  }

  /** Escape hides an active overlay and restores scrolling; any other key, or an overlay already hidden, changes nothing. */
  lemma EscapeHides(key: string, p: PageState)
    ensures !Escape(key, p).menuActive <==> key == "Escape" || !p.menuActive
    ensures key == "Escape" && p.menuActive ==> Escape(key, p).overflow == Unset
    ensures key != "Escape" ==> Escape(key, p) == p
  {
  }

  /**
   * As written, Escape hides the overlay behind the navigation's back:
   * after the menu was opened and Escape pressed, `isOpen` is still true,
   * so the next click on the toggle closes an already hidden menu and the
   * overlay stays hidden until a second click.
   */
  lemma EscapeDesyncs(s: NavState)
    requires Synced(s) && s.isOpen
    ensures var after := NavState(s.isOpen, Escape("Escape", s.page));
      !Synced(after) && !Toggle(after).page.menuActive && Synced(Toggle(Toggle(after))) && Toggle(Toggle(after)).page.menuActive
  {
  }

  /** Escape as evidently intended: it closes the menu through the navigation, so the flag is reset too. */
  function EscapeClosing(key: string, s: NavState): NavState
  {
    if key == "Escape" && s.page.menuActive then Close(s) else s
  }

  /** With the intended Escape, the flag and the page stay in agreement, Escape leaves the overlay hidden, and one toggle click opens it again. */
  lemma EscapeClosingKeepsSync(key: string, s: NavState)
    requires Synced(s)
    ensures Synced(EscapeClosing(key, s))
    ensures EscapeClosing(key, s).page == Escape(key, s.page)
    ensures key == "Escape" ==> Toggle(EscapeClosing(key, s)).page == Shown
  {
  }

  /** The page, as the navigation and the keyboard handler share it. */
  class Page {
    var menuActive: bool
    var overflow: Overflow

    function State(): PageState
      reads this
    {
      PageState(menuActive, overflow)
    }

    constructor (menuActive: bool, overflow: Overflow)
      ensures State() == PageState(menuActive, overflow)
    {
      this.menuActive := menuActive;
      this.overflow := overflow;
    }
  }

  class MobileNav {
    var isOpen: bool
    const page: Page

    function State(): NavState
      reads this, page
    {
      NavState(isOpen, page.State())
    }

    constructor (page: Page)
      ensures this.page == page && !isOpen
    {
      this.page := page;
      isOpen := false;
    }

    /** The toggle button's click handler. */
    method ToggleMenu()
      modifies this, page
      ensures State() == Toggle(old(State()))
    {
      isOpen := !isOpen;
      if isOpen {
        OpenMenu();
      } else {
        CloseMenu();
      }
    }

    method OpenMenu()
      modifies page
      ensures State() == Open(old(State()))
    {
      page.menuActive := true;
      page.overflow := Hidden;
    }

    /**
     * Escape handled as evidently intended, through the navigation: the
     * source's keyboard handler is `KeyboardNavKeydown` below.
     */
    method CloseOnEscape(key: string)
      modifies this, page
      ensures State() == EscapeClosing(key, old(State()))
    {
      if key == "Escape" && page.menuActive {
        CloseMenu();
      }
    }

    /** Also the click handler of every menu link. */
    method CloseMenu()
      modifies this, page
      ensures State() == Close(old(State()))
    {
      page.menuActive := false;
      page.overflow := Unset;
      isOpen := false;
    }
  }

  /** The keyboard navigation's keydown handler; it touches the page only. */
  method KeyboardNavKeydown(key: string, page: Page)
    modifies page
    ensures page.State() == Escape(key, old(page.State()))
  {
    if key == "Escape" {
      if page.menuActive {
        page.menuActive := false;
        page.overflow := Unset;
      }
    }
  }
}

=== FILE: particles.dfy ===
/**
 * The canvas particle field: how many particles a viewport gets, how one
 * particle moves in a frame (pointer repulsion, size boost, orbital wobble,
 * edge wrap), which pairs of particles are joined by a line and how opaque
 * that line is, and the rebuild that a viewport resize triggers.
 *
 * Values the browser computes with floating point (square roots, atan2,
 * cosine, sine) and the results of Math.random are parameters of the model,
 * constrained by what those functions promise.
 */
module Particles {
  import opened Wrappers

  /** The pointer's influence radius in pixels (the `mouse.radius` field, never reassigned). */
  const InfluenceRadius: real := 150.0
  /** How far past a canvas edge a particle may drift before it wraps to the other side. */
  const Margin: real := 50.0
  /** Two particles closer than this are joined by a line. */
  const LinkDistance: real := 150.0
  /** Opacity of the line between two coincident particles. */
  const MaxLinkOpacity: real := 0.3
  /** Math.PI as a double. */
  const Pi: real := 3.141592653589793

  /** The four particle colours of the field. */
  const Palette: seq<string> := [
    "rgba(99, 102, 241, 0.5)",
    "rgba(34, 211, 238, 0.4)",
    "rgba(139, 92, 246, 0.4)",
    "rgba(244, 114, 182, 0.3)"
  ]

  // ---------------------------------------------------------------------
  // Particle-count policy
  // ---------------------------------------------------------------------

  /** Three-tier particle count for a viewport of the given width. */
  function ParticleCount(width: int): (n: nat)
    ensures n == 30 || n == 50 || n == 80
    ensures n == 30 <==> width < 768
    ensures n == 80 <==> width >= 1024
  {
    if width < 768 then 30
    else if width < 1024 then 50
    else 80
  }

  /** A wider viewport never gets fewer particles. */
  lemma ParticleCountMonotone(narrow: int, wide: int)
    requires narrow <= wide
    ensures ParticleCount(narrow) <= ParticleCount(wide)
  {
  }

  /** The exact breakpoints of the policy. */
  lemma ParticleCountBreakpoints()
    ensures ParticleCount(767) == 30 && ParticleCount(768) == 50
    ensures ParticleCount(1023) == 50 && ParticleCount(1024) == 80
    ensures ParticleCount(500) == 30 && ParticleCount(900) == 50 && ParticleCount(1200) == 80
  {
  }

  // ---------------------------------------------------------------------
  // One particle's update, as a function of its state
  // ---------------------------------------------------------------------

  /** The part of a particle that an update changes. */
  datatype Motion = Motion(x: real, y: real, size: real, angle: real)

  /** The attributes fixed when a particle is created that drive its motion. */
  datatype Traits = Traits(baseSize: real, speedX: real, speedY: real, spin: real, orbitRadius: real)

  /**
   * The floating-point values one update obtains from the browser: the
   * distance to the pointer (Math.sqrt), the cosine and sine of the direction
   * toward the pointer (Math.atan2 then Math.cos, Math.sin) and the cosine and
   * sine of the advanced orbital angle.
   */
  datatype Trig = Trig(distance: real, cosPointer: real, sinPointer: real, cosOrbit: real, sinOrbit: real)

  /** The pointer counts only when both of its coordinates are known. */
  predicate PointerPresent(mouseX: Option<real>, mouseY: Option<real>)
  {
    mouseX.Some? && mouseY.Some?
  }

  /**
   * What the square root and the angle functions promise for the offset
   * (dx, dy) from a particle to the pointer: the distance is the Euclidean
   * norm, which is zero only for the zero offset, and the direction is the
   * unit vector toward the pointer (atan2(0, 0) is 0, so a pointer on the
   * particle gives direction (1, 0)).
   */
  predicate PointerGeometry(dx: real, dy: real, t: Trig)
  {
    && t.distance >= 0.0
    && t.distance * t.distance == dx * dx + dy * dy
    && if t.distance > 0.0 then t.cosPointer * t.distance == dx && t.sinPointer * t.distance == dy
       else dx == 0.0 && dy == 0.0 && t.cosPointer == 1.0 && t.sinPointer == 0.0
  }

  /** The repulsion strength of a pointer at the given distance inside the influence radius. */
  function Force(distance: real): (f: real)
    requires 0.0 <= distance < InfluenceRadius
    ensures 0.0 < f <= 1.0
    ensures f == 1.0 <==> distance == 0.0
  {
    (InfluenceRadius - distance) / InfluenceRadius
  }

  /** The pointer-interaction phase of an update: repulsion and size boost. */
  function Interact(m: Motion, baseSize: real, mouseX: Option<real>, mouseY: Option<real>, t: Trig): (r: Motion)
    requires PointerPresent(mouseX, mouseY) ==> t.distance >= 0.0
    ensures r.angle == m.angle
    ensures !PointerPresent(mouseX, mouseY) ==> r == m
    ensures PointerPresent(mouseX, mouseY) && t.distance >= InfluenceRadius ==> r == m.(size := baseSize)
    ensures PointerPresent(mouseX, mouseY) && t.distance < InfluenceRadius ==>
      baseSize < r.size <= baseSize + 3.0 && (r.size == baseSize + 3.0 <==> t.distance == 0.0)
  {
    if !PointerPresent(mouseX, mouseY) then m
    else if t.distance < InfluenceRadius then
      var force := Force(t.distance);
      Motion(m.x - t.cosPointer * force * 2.0, m.y - t.sinPointer * force * 2.0, baseSize + force * 3.0, m.angle)
    else m.(size := baseSize)
  }

  /** The orbital phase of an update: advance the angle, add drift and a tenth of the wobble. */
  function Drift(m: Motion, traits: Traits, t: Trig): (r: Motion)
    ensures r.size == m.size && r.angle == m.angle + traits.spin
    ensures -1.0 <= t.cosOrbit <= 1.0 && 0.0 <= traits.orbitRadius ==>
      -0.1 * traits.orbitRadius <= r.x - m.x - traits.speedX <= 0.1 * traits.orbitRadius
    ensures -1.0 <= t.sinOrbit <= 1.0 && 0.0 <= traits.orbitRadius ==>
      -0.1 * traits.orbitRadius <= r.y - m.y - traits.speedY <= 0.1 * traits.orbitRadius
  {
    var orbitX := t.cosOrbit * traits.orbitRadius;
    var orbitY := t.sinOrbit * traits.orbitRadius;
    Motion(m.x + (traits.speedX + orbitX * 0.1), m.y + (traits.speedY + orbitY * 0.1), m.size, m.angle + traits.spin)
  }

  /**
   * One coordinate's edge wrap: the two sequential tests of the source, so a
   * value below the margin lands exactly on the far margin and one above the
   * far margin lands exactly on the near one.
   */
  function Wrap(v: real, extent: nat): (r: real)
    ensures -Margin <= r <= extent as real + Margin
    ensures -Margin <= v <= extent as real + Margin ==> r == v
    ensures v < -Margin ==> r == extent as real + Margin
    ensures v > extent as real + Margin ==> r == -Margin
  {
    var wrapped := if v < -Margin then extent as real + Margin else v;
    if wrapped > extent as real + Margin then -Margin else wrapped
  }

  /** A whole update of one particle on a canvas of the given size. */
  function Step(m: Motion, traits: Traits, mouseX: Option<real>, mouseY: Option<real>,
                width: nat, height: nat, t: Trig): (r: Motion)
    requires PointerPresent(mouseX, mouseY) ==> t.distance >= 0.0
    ensures -Margin <= r.x <= width as real + Margin
    ensures -Margin <= r.y <= height as real + Margin
    ensures r.angle == m.angle + traits.spin
    ensures m.size >= traits.baseSize ==> r.size >= traits.baseSize
    ensures !PointerPresent(mouseX, mouseY) ==> r.size == m.size
    ensures PointerPresent(mouseX, mouseY) && t.distance >= InfluenceRadius ==> r.size == traits.baseSize
    ensures PointerPresent(mouseX, mouseY) && t.distance < InfluenceRadius ==>
      traits.baseSize < r.size <= traits.baseSize + 3.0
    ensures PointerPresent(mouseX, mouseY) && t.distance < InfluenceRadius ==>
      (r.size == traits.baseSize + 3.0 <==> t.distance == 0.0)
  {
    var moved := Drift(Interact(m, traits.baseSize, mouseX, mouseY, t), traits, t);
    moved.(x := Wrap(moved.x, width), y := Wrap(moved.y, height))
  }

  /** Wrapping an already wrapped coordinate changes nothing. */
  lemma WrapIdempotent(v: real, extent: nat)
    ensures Wrap(Wrap(v, extent), extent) == Wrap(v, extent)
  {
  }

  /** The size never drops below the base size, over any number of updates. */
  lemma {:induction false} SizeStaysAboveBase(m: Motion, traits: Traits, mouseX: seq<Option<real>>, mouseY: seq<Option<real>>,
                                              width: nat, height: nat, ts: seq<Trig>)
    requires |mouseX| == |mouseY| == |ts|
    requires forall k | 0 <= k < |ts| :: ts[k].distance >= 0.0
    requires m.size >= traits.baseSize
    ensures Steps(m, traits, mouseX, mouseY, width, height, ts).size >= traits.baseSize
    decreases |ts|
  {
    if ts != [] {
      var next := Step(m, traits, mouseX[0], mouseY[0], width, height, ts[0]);
      SizeStaysAboveBase(next, traits, mouseX[1..], mouseY[1..], width, height, ts[1..]);
    }
  }

  /** A run of updates, one per frame, with each frame's pointer and trigonometry. */
  function Steps(m: Motion, traits: Traits, mouseX: seq<Option<real>>, mouseY: seq<Option<real>>,
                 width: nat, height: nat, ts: seq<Trig>): Motion
    requires |mouseX| == |mouseY| == |ts|
    requires forall k | 0 <= k < |ts| :: ts[k].distance >= 0.0
    decreases |ts|
  {
    if ts == [] then m
    else Steps(Step(m, traits, mouseX[0], mouseY[0], width, height, ts[0]), traits,
               mouseX[1..], mouseY[1..], width, height, ts[1..])
  }

  /**
   * Repulsion pushes the particle straight away from the pointer by exactly
   * 2 * force pixels, so its distance to the pointer grows from d to d + 2 * force.
   */
  lemma RepulsionMovesAway(m: Motion, baseSize: real, px: real, py: real, t: Trig)
    requires PointerGeometry(px - m.x, py - m.y, t)
    requires t.distance < InfluenceRadius
    ensures var r := Interact(m, baseSize, Some(px), Some(py), t);
            var f := Force(t.distance);
            && (r.x - m.x) * (r.x - m.x) + (r.y - m.y) * (r.y - m.y) == (2.0 * f) * (2.0 * f)
            && 2.0 * f <= 2.0
            && (px - r.x) * (px - r.x) + (py - r.y) * (py - r.y) == (t.distance + 2.0 * f) * (t.distance + 2.0 * f)
  {
    var r := Interact(m, baseSize, Some(px), Some(py), t);
    var f := Force(t.distance);
    var d := t.distance;
    var dx, dy := px - m.x, py - m.y;
    var c, s := t.cosPointer, t.sinPointer;
    assert r.x == m.x - c * f * 2.0 && r.y == m.y - s * f * 2.0;
    if d > 0.0 {
      // The direction is a unit vector.
      assert d * d > 0.0;
      UnitDirection(c, s, d, dx, dy);
      assert (r.x - m.x) * (r.x - m.x) + (r.y - m.y) * (r.y - m.y) == (2.0 * f) * (2.0 * f) * (c * c + s * s);
      // The offset to the pointer is the old offset scaled by (d + 2f) / d.
      var ex, ey := px - r.x, py - r.y;
      assert ex == c * d + c * f * 2.0 && ey == s * d + s * f * 2.0;
      assert ex == c * (d + 2.0 * f) && ey == s * (d + 2.0 * f);
      assert ex * ex + ey * ey == (c * c + s * s) * ((d + 2.0 * f) * (d + 2.0 * f));
    }
  }

  /** A helper for RepulsionMovesAway: (c, s) scaled by d > 0 has norm d, so (c, s) is a unit vector. */
  lemma UnitDirection(c: real, s: real, d: real, dx: real, dy: real)
    requires d > 0.0 && c * d == dx && s * d == dy && d * d == dx * dx + dy * dy
    ensures c * c + s * s == 1.0
  {
    var k := c * c + s * s;
    calc {
      k * (d * d);
      (c * d) * (c * d) + (s * d) * (s * d);
      dx * dx + dy * dy;
      d * d;
    }
    assert (k - 1.0) * (d * d) == 0.0;
    assert d * d > 0.0;
  }

  /** The orbital wobble added in one update lies on a circle of a tenth of the orbit radius. */
  lemma WobbleOnCircle(m: Motion, traits: Traits, t: Trig)
    requires t.cosOrbit * t.cosOrbit + t.sinOrbit * t.sinOrbit == 1.0
    ensures var r := Drift(m, traits, t);
            var wx := r.x - m.x - traits.speedX;
            var wy := r.y - m.y - traits.speedY;
            wx * wx + wy * wy == (0.1 * traits.orbitRadius) * (0.1 * traits.orbitRadius)
  {
  }

  // ---------------------------------------------------------------------
  // Connection lines
  // ---------------------------------------------------------------------

  /** A line drawn between particles `from` and `to`. */
  datatype Line = Line(from: nat, to: nat, opacity: real)

  /** Line opacity, falling linearly from 0.3 for coincident particles to 0 at the link distance. */
  function Opacity(distance: real): (o: real)
    ensures 0.0 <= distance < LinkDistance ==> 0.0 < o <= MaxLinkOpacity
    ensures o == MaxLinkOpacity <==> distance == 0.0
  {
    (1.0 - distance / LinkDistance) * MaxLinkOpacity
  }

  /** Closer particles get a more opaque line; halfway gives half the maximum. */
  lemma OpacityShape(near: real, far: real)
    requires near < far
    ensures Opacity(near) > Opacity(far)
    ensures Opacity(75.0) == 0.15 && Opacity(0.0) == 0.3
  {
  }

  /** The pairs (i, j) with i < j < end visited by the inner loop of row i. */
  function Row(i: nat, end: nat): (r: seq<(nat, nat)>)
    requires i < end
  {
    seq(end - i - 1, k requires 0 <= k < end - i - 1 => (i, i + 1 + k))
  }

  lemma RowSnoc(i: nat, end: nat)
    requires i < end
    ensures Row(i, i + 1) == []
    ensures Row(i, end + 1) == Row(i, end) + [(i, end)]
  {
    var longer := Row(i, end + 1);
    assert |longer| == |Row(i, end)| + 1;
    assert forall k | 0 <= k < |Row(i, end)| :: longer[k] == Row(i, end)[k];
  }

  /** The pairs visited by the first `rows` rows of the nested loop over n particles. */
  function RowsBelow(rows: nat, n: nat): seq<(nat, nat)>
    requires rows <= n
  {
    if rows == 0 then [] else RowsBelow(rows - 1, n) + Row(rows - 1, n)
  }

  /** Every unordered pair of n particles, in the order the nested loop visits them. */
  function AllPairs(n: nat): seq<(nat, nat)>
  {
    RowsBelow(n, n)
  }

  /** The line, if any, drawn for one visited pair. */
  function LineOf(pair: (nat, nat), dist: (nat, nat) -> real): seq<Line>
  {
    if dist(pair.0, pair.1) < LinkDistance then [Line(pair.0, pair.1, Opacity(dist(pair.0, pair.1)))] else []
  }

  /** Lines drawn for the given visited pairs, in visiting order. */
  function LinesFor(pairs: seq<(nat, nat)>, dist: (nat, nat) -> real): seq<Line>
  {
    if pairs == [] then []
    else LinesFor(pairs[..|pairs| - 1], dist) + LineOf(pairs[|pairs| - 1], dist)
  }

  lemma LinesForSnoc(pairs: seq<(nat, nat)>, pair: (nat, nat), dist: (nat, nat) -> real)
    ensures LinesFor(pairs + [pair], dist) == LinesFor(pairs, dist) + LineOf(pair, dist)
  {
    assert (pairs + [pair])[..|pairs|] == pairs;
  }

  /** One step of the connection pass's inner loop keeps its invariants. */
  lemma VisitPair(visited: seq<(nat, nat)>, i: nat, j: nat, n: nat, dist: (nat, nat) -> real)
    requires i < j < n && visited == RowsBelow(i, n) + Row(i, j)
    ensures visited + [(i, j)] == RowsBelow(i, n) + Row(i, j + 1)
    ensures LinesFor(visited + [(i, j)], dist) == LinesFor(visited, dist) + LineOf((i, j), dist)
  {
    LinesForSnoc(visited, (i, j), dist);
    RowSnoc(i, j);
  }

  lemma {:induction false} RowsBelowLength(rows: nat, n: nat)
    requires rows <= n
    ensures 2 * |RowsBelow(rows, n)| == rows * (2 * n - rows - 1)
  {
    if rows > 0 {
      RowsBelowLength(rows - 1, n);
      assert |Row(rows - 1, n)| == n - rows;
      assert (rows - 1) * (2 * n - (rows - 1) - 1) + 2 * (n - rows) == rows * (2 * n - rows - 1);
    }
  }

  lemma {:induction false} RowsBelowMembers(rows: nat, n: nat)
    requires rows <= n
    ensures forall a: nat, b: nat :: (a, b) in RowsBelow(rows, n) <==> a < rows && a < b < n
  {
    if rows > 0 {
      RowsBelowMembers(rows - 1, n);
      var row := Row(rows - 1, n);
      forall a: nat, b: nat | a == rows - 1 && a < b < n
        ensures (a, b) in row
      {
        assert row[b - a - 1] == (a, b);
      }
    }
  }

  lemma {:induction false} RowsBelowDistinct(rows: nat, n: nat)
    requires rows <= n
    ensures forall k1, k2 | 0 <= k1 < k2 < |RowsBelow(rows, n)| :: RowsBelow(rows, n)[k1] != RowsBelow(rows, n)[k2]
  {
    if rows > 0 {
      RowsBelowDistinct(rows - 1, n);
      RowsBelowMembers(rows - 1, n);
      var before, row := RowsBelow(rows - 1, n), Row(rows - 1, n);
      var all := before + row;
      forall k1, k2 | 0 <= k1 < k2 < |all|
        ensures all[k1] != all[k2]
      {
        if k2 >= |before| && k1 < |before| {
          assert all[k1] in before;
          assert all[k1].0 < rows - 1;
        }
      }
    }
  }

  /**
   * The connection pass checks n(n-1)/2 pairs, each unordered pair of
   * distinct particles exactly once, always with the lower index first.
   */
  lemma AllPairsExactlyOnce(n: nat)
    ensures 2 * |AllPairs(n)| == n * (n - 1)
    ensures forall a: nat, b: nat :: (a, b) in AllPairs(n) <==> a < b < n
    ensures forall k1, k2 | 0 <= k1 < k2 < |AllPairs(n)| :: AllPairs(n)[k1] != AllPairs(n)[k2]
  {
    RowsBelowLength(n, n);
    RowsBelowMembers(n, n);
    RowsBelowDistinct(n, n);
  }

  lemma {:induction false} LinesForMembers(pairs: seq<(nat, nat)>, dist: (nat, nat) -> real)
    ensures forall l :: l in LinesFor(pairs, dist) <==>
      (l.from, l.to) in pairs && dist(l.from, l.to) < LinkDistance && l.opacity == Opacity(dist(l.from, l.to))
  {
    if pairs != [] {
      var init, last := pairs[..|pairs| - 1], pairs[|pairs| - 1];
      LinesForMembers(init, dist);
      assert pairs == init + [last];
      forall l
        ensures l in LinesFor(pairs, dist) <==>
          (l.from, l.to) in pairs && dist(l.from, l.to) < LinkDistance && l.opacity == Opacity(dist(l.from, l.to))
      {
        assert LinesFor(pairs, dist) == LinesFor(init, dist) + LineOf(last, dist);
        assert (l.from, l.to) in pairs <==> (l.from, l.to) in init || (l.from, l.to) == last;
      }
    }
  }

  /**
   * Among n particles, the pair i < j gets a line exactly when its distance
   * is below 150, with opacity (1 - d/150) * 0.3, which lies in (0, 0.3];
   * no other line is drawn.
   */
  lemma LineIffClose(n: nat, dist: (nat, nat) -> real)
    requires forall i: nat, j: nat | i < j < n :: dist(i, j) >= 0.0
    ensures forall l <- LinesFor(AllPairs(n), dist) ::
      l.from < l.to < n && 0.0 < l.opacity <= MaxLinkOpacity && l.opacity == Opacity(dist(l.from, l.to))
    ensures forall i: nat, j: nat | i < j < n ::
      Line(i, j, Opacity(dist(i, j))) in LinesFor(AllPairs(n), dist) <==> dist(i, j) < LinkDistance
  {
    AllPairsExactlyOnce(n);
    LinesForMembers(AllPairs(n), dist);
  }

  // ---------------------------------------------------------------------
  // The objects
  // ---------------------------------------------------------------------

  /** The Math.random() results drawn by one Particle constructor, one per attribute. */
  datatype Draws = Draws(x: real, y: real, size: real, speedX: real, speedY: real,
                         color: real, angle: real, spin: real, orbit: real)
  {
    predicate Valid()
    {
      && 0.0 <= x < 1.0 && 0.0 <= y < 1.0 && 0.0 <= size < 1.0
      && 0.0 <= speedX < 1.0 && 0.0 <= speedY < 1.0 && 0.0 <= color < 1.0
      && 0.0 <= angle < 1.0 && 0.0 <= spin < 1.0 && 0.0 <= orbit < 1.0
    }
  }

  /** A draw in [0, 1) scaled by a non-negative extent. */
  lemma ScaledDraw(r: real, extent: real)
    requires 0.0 <= r < 1.0 && extent >= 0.0
    ensures 0.0 <= r * extent <= extent
    ensures extent > 0.0 ==> r * extent < extent
  {
  }

  /** A random draw in [0, 1) scaled to [0, extent): `Math.random() * extent`. */
  function Scaled(r: real, extent: real): (v: real)
    requires 0.0 <= r < 1.0 && extent >= 0.0
    ensures 0.0 <= v <= extent
    ensures extent > 0.0 ==> v < extent
  {
    ScaledDraw(r, extent);
    r * extent
  }

  /** Math.floor(r * colors.length): the palette slot a draw in [0, 1) picks. */
  function PaletteIndex(r: real): (k: nat)
    requires 0.0 <= r < 1.0
    ensures k < |Palette|
  {
    Scaled(r, |Palette| as real).Floor
  }

  class Particle {
    const system: ParticleSystem
    var x: real
    var y: real
    var size: real
    const baseSize: real
    const speedX: real
    const speedY: real
    const color: string
    var angle: real
    const spin: real
    const orbitRadius: real

    /** The state an update changes. */
    function Current(): Motion
      reads this
    {
      Motion(x, y, size, angle)
    }

    /** The attributes fixed at creation that drive the update. */
    function Attributes(): Traits
    {
      Traits(baseSize, speedX, speedY, spin, orbitRadius)
    }

    /** The ranges the constructor draws a particle's attributes from, on a width x height canvas. */
    predicate Spawned(width: nat, height: nat)
      reads this
    {
      && 0.0 <= x <= width as real && (width > 0 ==> x < width as real)
      && 0.0 <= y <= height as real && (height > 0 ==> y < height as real)
      && 1.0 <= baseSize < 4.0 && size == baseSize
      && -0.25 <= speedX < 0.25 && -0.25 <= speedY < 0.25
      && color in Palette
      && 0.0 <= angle < Pi * 2.0
      && -0.01 <= spin < 0.01
      && 0.0 <= orbitRadius < 2.0
    }

    constructor (system: ParticleSystem, d: Draws)
      requires d.Valid()
      ensures this.system == system
      ensures Spawned(system.width, system.height)
    {
      this.system := system;
      x := Scaled(d.x, system.width as real);
      y := Scaled(d.y, system.height as real);
      size := d.size * 3.0 + 1.0;
      baseSize := d.size * 3.0 + 1.0;
      speedX := (d.speedX - 0.5) * 0.5;
      speedY := (d.speedY - 0.5) * 0.5;
      var slot := PaletteIndex(d.color);
      assert Palette[slot] in Palette;
      color := Palette[slot];
      angle := Scaled(d.angle, Pi * 2.0);
      spin := (d.spin - 0.5) * 0.02;
      orbitRadius := d.orbit * 2.0;
    }

    /** One frame's update, reading the field's pointer and canvas size. */
    method Update(t: Trig)
      requires PointerPresent(system.mouseX, system.mouseY) ==> t.distance >= 0.0
      modifies this
      ensures Current() == Step(old(Current()), Attributes(), system.mouseX, system.mouseY,
                                system.width, system.height, t)
    {
      ghost var interacted := Interact(Current(), baseSize, system.mouseX, system.mouseY, t);
      ghost var moved := Drift(interacted, Attributes(), t);

      // Mouse interaction
      if system.mouseX != None && system.mouseY != None {
        if t.distance < InfluenceRadius {
          var force := (InfluenceRadius - t.distance) / InfluenceRadius;
          x := x - t.cosPointer * force * 2.0;
          y := y - t.sinPointer * force * 2.0;
          size := baseSize + force * 3.0;
          assert force == Force(t.distance);
        } else {
          size := baseSize;
        }
      }

      assert Current() == interacted;

      // Orbital movement
      angle := angle + spin;
      var orbitX := t.cosOrbit * orbitRadius;
      var orbitY := t.sinOrbit * orbitRadius;

      // Update position
      x := x + (speedX + orbitX * 0.1);
      y := y + (speedY + orbitY * 0.1);
      assert Current() == moved;

      // Wrap around edges
      if x < -Margin { x := system.width as real + Margin; }
      if x > system.width as real + Margin { x := -Margin; }
      if y < -Margin { y := system.height as real + Margin; }
      if y > system.height as real + Margin { y := -Margin; }
      assert x == Wrap(moved.x, system.width) && y == Wrap(moved.y, system.height);
    }
  }

  class ParticleSystem {
    /** The canvas size, kept equal to the viewport size. */
    var width: nat
    var height: nat
    /** The pointer position; `None` after a `mouseout` reaches the window, which it does whenever the pointer leaves any element. */
    var mouseX: Option<real>
    var mouseY: Option<real>
    var particles: seq<Particle>
    var particleCount: nat

    /** All particles were created by this field on its current canvas. */
    predicate Populated()
      reads this, particles
    {
      forall p <- particles :: p.system == this && p.Spawned(width, height)
    }

    constructor (innerWidth: nat, innerHeight: nat, draws: seq<Draws>)
      requires |draws| == ParticleCount(innerWidth)
      requires forall d <- draws :: d.Valid()
      ensures width == innerWidth && height == innerHeight
      ensures mouseX == None && mouseY == None
      ensures particleCount == ParticleCount(innerWidth) && |particles| == particleCount
      ensures forall p <- particles :: fresh(p)
      ensures forall k1, k2 | 0 <= k1 < k2 < |particles| :: particles[k1] != particles[k2]
      ensures Populated()
    {
      particleCount := ParticleCount(innerWidth);
      width, height := innerWidth, innerHeight;
      mouseX, mouseY := None, None;
      particles := [];
      new;
      CreateParticles(draws);
    }

    /** Appends `particleCount` new particles, one per draw. */
    method CreateParticles(draws: seq<Draws>)
      requires |draws| == particleCount
      requires forall d <- draws :: d.Valid()
      modifies this`particles
      ensures |particles| == |old(particles)| + particleCount
      ensures particles[..|old(particles)|] == old(particles)
      ensures forall k | |old(particles)| <= k < |particles| ::
        fresh(particles[k]) && particles[k].system == this && particles[k].Spawned(width, height)
      ensures forall k1, k2 | |old(particles)| <= k1 < k2 < |particles| :: particles[k1] != particles[k2]
    {
      var i := 0;
      while i < particleCount
        invariant 0 <= i <= particleCount
        invariant |particles| == |old(particles)| + i
        invariant particles[..|old(particles)|] == old(particles)
        invariant forall k | |old(particles)| <= k < |particles| ::
          fresh(particles[k]) && particles[k].system == this && particles[k].Spawned(width, height)
        invariant forall k1, k2 | |old(particles)| <= k1 < k2 < |particles| :: particles[k1] != particles[k2]
      {
        var p := new Particle(this, draws[i]);
        particles := particles + [p];
        i := i + 1;
      }
    }

    /**
     * The resize handler: match the canvas to the viewport, drop every
     * particle and build the count that the new width calls for.
     */
    method OnResize(innerWidth: nat, innerHeight: nat, draws: seq<Draws>)
      requires |draws| == ParticleCount(innerWidth)
      requires forall d <- draws :: d.Valid()
      modifies this
      ensures width == innerWidth && height == innerHeight
      ensures mouseX == old(mouseX) && mouseY == old(mouseY)
      ensures particleCount == ParticleCount(innerWidth) && |particles| == particleCount
      ensures forall p <- particles :: fresh(p)
      ensures forall k1, k2 | 0 <= k1 < k2 < |particles| :: particles[k1] != particles[k2]
      ensures Populated()
    {
      width, height := innerWidth, innerHeight;
      particles := [];
      particleCount := ParticleCount(innerWidth);
      CreateParticles(draws);
    }

    /** The mousemove handler. */
    method OnMouseMove(clientX: real, clientY: real)
      modifies this`mouseX, this`mouseY
      ensures mouseX == Some(clientX) && mouseY == Some(clientY)
    {
      mouseX, mouseY := Some(clientX), Some(clientY);
    }

    /** The mouseout handler: the pointer is gone, so no repulsion applies. */
    method OnMouseOut()
      modifies this`mouseX, this`mouseY
      ensures mouseX == None && mouseY == None
    {
      mouseX, mouseY := None, None;
    }

    /** What Math.sqrt promises of `dist` for the current particles: the Euclidean distance. */
    predicate Distances(dist: (nat, nat) -> real)
      reads this, particles
    {
      forall i: nat, j: nat | i < j < |particles| :: Euclidean(particles[i], particles[j], dist(i, j))
    }

    static predicate Euclidean(p: Particle, q: Particle, distance: real)
      reads p, q
    {
      var dx := p.x - q.x;
      var dy := p.y - q.y;
      distance >= 0.0 && distance * distance == dx * dx + dy * dy
    }

    /**
     * The connection pass: visit every pair i < j once and draw a line for
     * each pair closer than the link distance. `visited` records the pairs
     * checked, in order; `lines` the lines drawn, in order.
     */
    method DrawConnections(dist: (nat, nat) -> real) returns (visited: seq<(nat, nat)>, lines: seq<Line>)
      requires Distances(dist)
      ensures visited == AllPairs(|particles|)
      ensures lines == LinesFor(visited, dist)
    {
      var n := |particles|;
      visited, lines := [], [];
      var i := 0;
      while i < n
        invariant 0 <= i <= n
        invariant visited == RowsBelow(i, n)
        invariant lines == LinesFor(visited, dist)
      {
        visited, lines := ConnectRow(i, n, dist, visited, lines);
        i := i + 1;
      }
    }

    /** The inner loop of the connection pass: pairs (i, j) for every j > i. */
    static method ConnectRow(i: nat, n: nat, dist: (nat, nat) -> real, visited0: seq<(nat, nat)>, lines0: seq<Line>)
      returns (visited: seq<(nat, nat)>, lines: seq<Line>)
      requires i < n && visited0 == RowsBelow(i, n) && lines0 == LinesFor(visited0, dist)
      ensures visited == RowsBelow(i + 1, n) && lines == LinesFor(visited, dist)
    {
      visited, lines := visited0, lines0;
      var j := i + 1;
      RowSnoc(i, j);
      while j < n
        invariant i + 1 <= j <= n
        invariant visited == RowsBelow(i, n) + Row(i, j)
        invariant lines == LinesFor(visited, dist)
      {
        VisitPair(visited, i, j, n, dist);
        var distance := dist(i, j);
        if distance < LinkDistance {
          lines := lines + [Line(i, j, Opacity(distance))];
        }
        visited := visited + [(i, j)];
        j := j + 1;
      }
    }
  }
}

=== FILE: rotating_text.dfy ===
/**
 * The hero's rotating words: every three seconds the current word loses
 * class `active` and the next one, cyclically, gains it.
 */
module RotatingText {

  /** The word after word i, wrapping to the first after the last. */
  function Next(i: nat, count: nat): (j: nat)
    requires count > 0
    ensures j < count
  {
    (i + 1) % count
  }

  /** From a word on the page, the next one is the following word, or the first after the last. */
  lemma NextWraps(j: nat, count: nat)
    requires j < count
    ensures Next(j, count) == if j + 1 < count then j + 1 else 0
  {
  }

  /** The current word after a number of rotations. */
  function After(i: nat, ticks: nat, count: nat): (j: nat)
    requires count > 0
    decreases ticks
  {
    if ticks == 0 then i else Next(After(i, ticks - 1, count), count)
  }

  /** Within one cycle, n rotations from word i move n words on, wrapping past the last word to the first. */
  lemma {:induction false} AfterWithinCycle(i: nat, ticks: nat, count: nat)
    requires count > 0 && i < count && ticks <= count
    ensures After(i, ticks, count) == if i + ticks < count then i + ticks else i + ticks - count
    decreases ticks
  {
    if ticks > 0 {
      AfterWithinCycle(i, ticks - 1, count);
      var j := After(i, ticks - 1, count);
      NextWraps(j, count);
      assert After(i, ticks, count) == Next(j, count);
    }
  }

  /** The rotation is a full cycle: every word is shown once per cycle, and after as many rotations as words the same word is back. */
  lemma FullCycle(i: nat, ticks: nat, count: nat)
    requires count > 0 && i < count
    ensures After(i, count, count) == i
    ensures 0 < ticks < count ==> After(i, ticks, count) != i
  {
    AfterWithinCycle(i, count, count);
    if 0 < ticks < count {
      AfterWithinCycle(i, ticks, count);
    }
  }

  /** The rotation repeats with a period of as many rotations as there are words. */
  lemma {:induction false} Periodic(i: nat, ticks: nat, count: nat)
    requires count > 0 && i < count
    ensures After(i, ticks + count, count) == After(i, ticks, count)
    decreases ticks
  {
    if ticks == 0 {
      FullCycle(i, 0, count);
    } else {
      Periodic(i, ticks - 1, count);
      assert After(i, ticks + count, count) == Next(After(i, ticks - 1 + count, count), count);
    }
  }

  /** One rotation of the `active` marks: word i loses it and the next word gains it. */
  function Rotate(active: seq<bool>, i: nat): (r: seq<bool>)
    requires i < |active|
    ensures |r| == |active|
    ensures r[Next(i, |active|)]
    ensures |active| > 1 ==> !r[i]
    ensures forall k | 0 <= k < |active| && k != i && k != Next(i, |active|) :: r[k] == active[k]
  {
    active[i := false][Next(i, |active|) := true]
  }

  /** Only word i is marked. */
  predicate OnlyActive(active: seq<bool>, i: nat)
  {
    forall k | 0 <= k < |active| :: active[k] <==> k == i
  }

  /** When only the current word is marked, after a rotation only the next word is. */
  lemma RotateKeepsOneActive(active: seq<bool>, i: nat)
    requires i < |active| && OnlyActive(active, i)
    ensures OnlyActive(Rotate(active, i), Next(i, |active|))
  {
  }

  class RotatingWords {
    /** Whether each `.rotate-word` has class `active`. */
    var active: seq<bool>
    var currentIndex: nat

    ghost predicate Valid()
      reads this
    {
      currentIndex < |active| || currentIndex == 0
    }

    constructor (active: seq<bool>)
      ensures Valid() && this.active == active && currentIndex == 0
    {
      this.active := active;
      currentIndex := 0;
    }

    /**
     * One run of the timer's callback. With no words on the page, reading
     * the first word's class list throws a `TypeError`; `threw` reports it,
     * and nothing changes.
     */
    method Tick() returns (threw: bool)
      requires Valid()
      modifies this
      ensures Valid()
      ensures threw <==> old(active) == []
      ensures |active| == |old(active)|
      ensures threw ==> active == old(active) && currentIndex == old(currentIndex)
      ensures !threw ==> currentIndex == Next(old(currentIndex), |active|) && active == Rotate(old(active), old(currentIndex))
    {
      if |active| == 0 {
        return true;
      }
      threw := false;
      active := active[currentIndex := false];
      currentIndex := (currentIndex + 1) % |active|;
      active := active[currentIndex := true];
    }
  }
}

=== FILE: split_text.dfy ===
/**
 * Split-text animation markup: the text of each `.split-text` element is
 * rewritten so that every non-space character sits in its own
 * `<span class="char">` (which the scroll animation then staggers), while
 * spaces stay bare.
 */
module SplitText {
  import opened Wrappers

  const OpenTag: string := "<span class=\"char\">"
  const CloseTag: string := "</span>"

  /** The markup for one character of the text. */
  function Piece(c: char): string
  {
    if c == ' ' then " " else OpenTag + [c] + CloseTag
  }

  /** How many characters of the text are not spaces, that is, how many spans the markup holds. */
  function NonSpaces(text: string): (n: nat)
    ensures n <= |text|
  {
    if text == [] then 0 else (if text[0] == ' ' then 0 else 1) + NonSpaces(text[1..])
  }

  /**
   * The new `innerHTML`: the characters' pieces joined with nothing between
   * them. Each non-space character grows by the 26 characters of its two
   * tags; spaces stay one character.
   */
  function SplitChars(text: string): (html: string)
    ensures |html| == |text| + 26 * NonSpaces(text)
  {
    if text == [] then "" else Piece(text[0]) + SplitChars(text[1..])
  }

  /** Spaces stay bare, every other character gets its own span, and nothing is HTML-escaped. */
  lemma SplitExamples()
    ensures SplitChars("a b") == OpenTag + "a" + CloseTag + " " + OpenTag + "b" + CloseTag
    ensures SplitChars("<") == OpenTag + "<" + CloseTag
  {
    assert "a b"[1..] == " b" && " b"[1..] == "b" && "b"[1..] == "" && "<"[1..] == "";
    assert SplitChars("b") == Piece('b');
    assert SplitChars(" b") == " " + SplitChars("b");
    assert SplitChars("a b") == Piece('a') + SplitChars(" b");
    assert SplitChars("<") == Piece('<');
  }

  /** Reads back the characters from markup made of bare spaces and one-character spans; `None` on anything else. */
  function Unsplit(html: string): Option<string>
    decreases |html|
  {
    if html == [] then Some("")
    else if html[0] == ' ' then
      match Unsplit(html[1..])
      case None => None
      case Some(rest) => Some(" " + rest)
    else if |html| >= 27 && html[..19] == OpenTag && html[20..27] == CloseTag then
      match Unsplit(html[27..])
      case None => None
      case Some(rest) => Some([html[19]] + rest)
    else None
  }

  /** The markup loses nothing: reading it back gives the original text, so the spans hold the text's characters in order. */
  lemma {:induction false} SplitRoundTrip(text: string)
    ensures Unsplit(SplitChars(text)) == Some(text)
  {
    if text != [] {
      var c := text[0];
      var rest := SplitChars(text[1..]);
      var html := SplitChars(text);
      assert html == Piece(c) + rest;
      SplitRoundTrip(text[1..]);
      if c == ' ' {
        assert html[0] == ' ';
        assert html[1..] == rest;
      } else {
        assert |OpenTag| == 19 && |CloseTag| == 7;
        var piece := OpenTag + [c] + CloseTag;
        assert html == piece + rest;
        assert html[0] == '<';
        assert piece[..19] == OpenTag && piece[19] == c && piece[20..] == CloseTag;
        assert html[..19] == OpenTag;
        assert html[19] == c;
        assert |piece| == 27 && html[..27] == piece;
        assert html[20..27] == piece[20..];
        assert html[27..] == rest;
      }
      assert text == [c] + text[1..];
    }
  }
}

=== FILE: wrappers.dfy ===
/** An optional value, for the source's nullable fields (`null` becomes `None`). */
module Wrappers {
  datatype Option<+T> = None | Some(value: T)
}
